=== FILE: README.md ===
# Corpus index of the recording studio API, in Dafny

This project models the in-memory corpus index (`FileInterface`) of a small
speech-corpus recording service. Prompts are text files under `texts/`.
Each prompt may have reference audio under `waves/` and a recorded take
under `recorded/`. All three are joined by a key taken from the file name.

The index keeps:

- three key-to-path dictionaries (`texts`, `waves`, `recorded`);
- the naturally sorted list of text keys (`key_list`);
- two deques that split that list into recorded and unrecorded keys.

Clients list the keys by classification (ALL, REC, UNREC), page through a
list ten items at a time, fetch one item, upload a take, and delete a take.

The model is a set of pure functions over immutable datatypes:

- `CorpusIndex.FileInterface` is the index state.
- `CorpusIndex.Disk` stands for the files. It maps text paths to their
  decoded contents and audio paths to their bytes.
- Directory listings (the results of `glob`) are input sequences of paths.
- The natural-sort comparison is a parameter `le`. Keys are sorted by a
  stable insertion sort, which is proved sorted whenever `le` is a total
  preorder.
- Python exceptions become `Err(fault)` values of `Results.Result`.

Modules: `Results` (result and fault types), `Seqs` (duplicate freedom,
first-occurrence removal, Python slicing), `Paths` (`os.path.join`,
`basename`, key derivation), `Text` (`str.strip`, ASCII upper-casing),
`Sorting` (the key order), `CorpusIndex` (state and operations) and
`CorpusProperties` (the lemmas relating them).

Two behaviours of the source are easy to misread. The model follows the
code in both:

- `get_nb_pages` returns the length of the selected list, not a page count.
- `get_page` cannot slice the recorded and unrecorded lists at all (see
  Findings).

## Model

| member | source | states |
|---|---|---|
| Paths.PathJoin | file_interface.py:177 | the joined path ends with the second part; an absolute second part replaces the first; otherwise the path starts with the first part, and a single `/` separates them exactly when the first part is non-empty and does not already end in `/` |
| Paths.Basename | file_interface.py:163 | the base name has no `/`, is a suffix of the path, and is preceded by a `/` when shorter than the path |
| Paths.UpToDot | file_interface.py:163 | the result has no `.`, is a prefix of the text, and is followed there by a `.` when shorter |
| Paths.ParseFileName | file_interface.py:160-164 | the key has no `.` and no `/`, is a prefix of the base name, and is followed there by a `.` when shorter |
| Paths.JoinedFileNameParses | file_interface.py:177 | a file `<dir>/<key><ext>` parses back to `key` when the key has no `.` or `/` and the extension starts with `.` |
| Text.IsSpace | file_interface.py:98 | space, tab, newline and carriage return count as white space; letters, digits, `.` and `_` do not |
| Text.StripLeft | file_interface.py:98 | drops exactly the leading white space: what is dropped is all white space and what is kept starts with none |
| Text.StripRight | file_interface.py:98 | drops exactly the trailing white space: what is dropped is all white space and what is kept ends with none |
| Text.Strip | file_interface.py:98 | the stripped text neither starts nor ends with white space |
| Text.StripPadded | file_interface.py:98 | stripping white-space padding of any length around stripped text gives back exactly that text |
| Text.UpperChar | file_interface.py:62 | a lower-case ASCII letter becomes its upper-case letter; every other character is unchanged |
| Text.Upper | file_interface.py:62 | upper-casing keeps the length and maps each character on its own |
| Seqs.RemoveFirst | file_interface.py:184 | removing a present element shortens the deque by one and keeps every other element; removing an absent one changes nothing |
| Seqs.RemoveFirstSplits | file_interface.py:184 | the removal cuts out exactly the first occurrence and keeps the order of the rest |
| Seqs.RemoveFirstNoDup | file_interface.py:184 | in a duplicate-free deque the removed key is gone and no duplicate appears |
| Seqs.PySlice | file_interface.py:81 | an in-range Python slice is the ordinary subsequence; a stop of 0 gives the empty slice |
| Seqs.SliceBound | file_interface.py:81 | a negative slice bound counts from the end and every bound is clamped to the sequence |
| Sorting.Sort | file_interface.py:55 | the sorted key list is a permutation of the input keys |
| Sorting.SortSorted | file_interface.py:55 | with a total-preorder comparison the sorted key list is in order |
| CorpusIndex.KeyedMap | file_interface.py:147-158 | every listed path yields a key in the dictionary, and each key maps to a listed path that parses to that key |
| CorpusIndex.KeysInOrder | file_interface.py:149-150 | the dictionary's keys, each exactly once |
| CorpusIndex.RecordedOf | file_interface.py:116 | exactly the keys that have a recording, without duplicates when the key list has none |
| CorpusIndex.Unrecorded | file_interface.py:118 | exactly the keys that have no recording, without duplicates when the key list has none |
| CorpusIndex.NotListed | file_interface.py:118 | exactly the keys absent from the recorded deque |
| CorpusIndex.NotListedIsUnrecorded | file_interface.py:114-119 | filtering out the recorded deque's keys is the same as filtering out the recorded dictionary's keys |
| CorpusIndex.Build | file_interface.py:25-59 | construction establishes the partition invariant; the three dictionaries are the keyed dictionaries of the text, wave and recorded listings; the recorded deque is the key list filtered by the recorded dictionary; the key list is a permutation of the text keys; the text, wave and recorded directories are `texts`, `waves` and `recorded` joined to the master directory |
| CorpusIndex.ParseListType | file_interface.py:62 | a token is accepted exactly when its upper-cased form is a classification name; anything else is the lookup's KeyError |
| CorpusIndex.Select | file_interface.py:63-70 | ALL, REC and UNREC select the key list, the recorded deque and the unrecorded deque; under the invariant the selection has no duplicates and holds text keys only |
| CorpusIndex.GetTypeList | file_interface.py:61-71 | ALL, REC and UNREC (any case) give the key list, the recorded deque and the unrecorded deque; any other token fails; every listed key is a text key |
| CorpusIndex.GetNbPages | file_interface.py:87-88 | the result is the length of the selected list, and fails exactly when the token is unknown |
| CorpusIndex.Lookup | file_interface.py:93-94 | an entry is present exactly when the key is in the dictionary, and then holds its path |
| CorpusIndex.AudioField | file_interface.py:100-105 | with buffering, a non-empty path is read and a missing file fails; otherwise the path is kept; an absent entry stays absent |
| CorpusIndex.GetItem | file_interface.py:90-112 | an unknown key or missing text file fails; without buffering it succeeds otherwise; with buffering it succeeds exactly when, in addition, each non-empty audio path names an existing file; the returned key is the argument; the text is the stripped file contents; each audio field is absent exactly when its dictionary has no entry, holds the path when not buffered or the path is empty, and holds the file's bytes when buffered |
| CorpusIndex.PageKeys | file_interface.py:76-81 | a page exists exactly when the index is below the floor of length / 10; a non-negative page is the ten keys from `10*idx` on; page -1 is empty |
| CorpusIndex.PageItems | file_interface.py:84 | the page succeeds exactly when every key's item does, and then lists those items in page order |
| CorpusIndex.GetPageAsWritten | file_interface.py:73-85 | an unknown token fails; an index at or past the floor of length / 10 fails the range assertion first, for every classification; an in-range index of the recorded or unrecorded classification fails on the deque slice; those two classifications never yield a page |
| CorpusIndex.GetPage | file_interface.py:73-85 | an unknown token fails; an index at or past the floor of length / 10 is out of range; a non-negative page has exactly ten items |
| CorpusIndex.RecordingPath | file_interface.py:177 | the recording path ends in `<key>.wav`; for a key that does not start with `/` it is exactly `<recorded_dir><key>.wav` when the directory is empty or ends in `/`, and `<recorded_dir>/<key>.wav` otherwise; a key starting with `/` gives exactly `<key>.wav` |
| CorpusIndex.WriteAudioBuffer | file_interface.py:176-185 | the bytes are stored at the recording path, which is filed under the key; an unrecorded key leaves the unrecorded deque and goes to the front of the recorded deque; otherwise both deques are unchanged; nothing else changes |
| CorpusIndex.RemoveRecordedAudio | file_interface.py:187-188 | a key with no recording fails; a missing file fails; otherwise only that file is deleted and the index is unchanged |
| CorpusIndex.RemoveRecordedAudioFixed | file_interface.py:187-188 | the intended removal: fails like `RemoveRecordedAudio`; on success it deletes the file, drops the key's recording entry, removes the key from the recorded deque keeping the order of the rest, makes the unrecorded deque the key list filtered by the remaining recordings, and changes nothing else |
| CorpusProperties.LaterPathWins | file_interface.py:149-157 | when two paths give the same key, the later one is kept |
| CorpusProperties.BuildSortsKeys | file_interface.py:55 | the key list is sorted by the given comparison |
| CorpusProperties.BuildKeys | file_interface.py:114-119 | the key list holds each text-listing key once; a key starts in the recorded deque exactly when the recorded listing has a file for it; the unrecorded deque is the rest in key-list order |
| CorpusProperties.PartitionOfKeyList | file_interface.py:59 | the two deques are disjoint, together cover the key list, and their lengths add up to its length |
| CorpusProperties.UpperMatches | file_interface.py:62 | upper-casing gives an upper-case name exactly when the token spells it ignoring case |
| CorpusProperties.ListTypeTokens | file_interface.py:62 | a token selects a classification exactly when it spells the name in any mix of cases |
| CorpusProperties.PageItemsSucceed | file_interface.py:84 | a page of text keys whose files exist yields its items |
| CorpusProperties.PageExists | file_interface.py:75-84 | for a known classification a page exists exactly when the index is below the list length / 10 |
| CorpusProperties.PageHoldsSlice | file_interface.py:75-84 | a non-negative page holds ten items whose keys are the selected list's slice in order |
| CorpusProperties.ItemsKeepKeys | file_interface.py:84 | the items of a page are as many as its keys and carry them in order |
| CorpusProperties.PageIsSlice | file_interface.py:76-84 | a page exists exactly when the index is below the list length / 10; it then holds ten items whose keys are the list's slice in order |
| CorpusProperties.TrailingKeysNeverPaged | file_interface.py:77-81 | for every index, negative ones included, no page holds a key past the last full page |
| CorpusProperties.DequePagesFail | file_interface.py:81 | every in-range page of REC or UNREC fails as written, while the intended page exists with ten items |
| CorpusProperties.AsWrittenPagesAll | file_interface.py:73-85 | for ALL the code as written and the intended paging agree |
| CorpusProperties.UnrecordedAfterRecording | file_interface.py:183-184 | recording a key changes the unrecorded keys by removing that key's single occurrence |
| CorpusProperties.WritePreservesValid | file_interface.py:176-185 | a write keeps the partition invariant and leaves the key list, texts and waves unchanged |
| CorpusProperties.WriteRecordsKey | file_interface.py:182-185 | after a write the key is recorded, not unrecorded, at the front of the recorded deque if it was unrecorded, and its file holds the bytes; other keys keep their classification and entry |
| CorpusProperties.WriteThenGetItem | file_interface.py:176-185 | reading the item back with buffering returns the bytes just written, and succeeds when the text file and reference audio can be read |
| CorpusProperties.RecordingPathParsesBack | file_interface.py:177 | a key without `.` or `/` is recovered from its recording path by the key derivation |
| CorpusProperties.RemoveLeavesStaleEntry | file_interface.py:187-188 | after removal the key is still recorded but its file is gone, so a buffered read of its item fails on that path |
| CorpusProperties.FixedRemoveRequeues | file_interface.py:187-188 | the intended removal keeps the partition invariant, drops the key from the recorded side and puts it back among the unrecorded keys |

## Left out

- Filesystem effects: `os.makedirs`, the `os.path.exists` tests and `glob` are not modelled. The three listings are parameters, and the order in which `glob` returns paths is whatever the caller passes.
- Text decoding and newline translation on `open(..., 'r')` are not modelled. The disk holds text files as already decoded strings.
- Path aliasing is not modelled. The disk is keyed by path strings, so two spellings of one file (`..` components, repeated `/`, symbolic links) are two files here. In the source, a key such as `../waves/a` makes `write_audio_buffer` overwrite the reference audio `waves/a.wav`. In the model that write leaves the reference audio unchanged.
- Writes never fail in the model. A write into a directory that does not exist (a key containing `/`) or a full disk is not modelled.
- CorpusIndex.AudioField: a buffered read returns the raw bytes, not Python's `str(bytes)` rendering of them that `read_audio_buffer` returns.
- CorpusIndex.ParseListType: upper-cases ASCII letters only. This decides every token as the source does: no non-ASCII character upper-cases, under Python's `str.upper`, to a string made only of the letters of ALL, REC and UNREC. The fault of a rejected token carries the token as given, where Python's KeyError carries its upper-cased form.
- Sorting.Sort: stands in for `natsorted` given its comparison. The model proves the result is a sorted permutation. It does not prove that ties come out in the same order as the library's.
- CorpusIndex.Item: an absent audio entry is `None` rather than the empty string the source returns.
- Text files and audio files sit in separate maps of the disk. A path that is both a text file and an audio file is not modelled. The source's extensions and directories keep them apart.
- `read_audio_buffer` appears only through `get_item`. `get_item` opens, reads and strips the text file itself (file_interface.py:97-98), so `read_text` is never called and is not modelled.
- `get_type_list` returns the live deques, and callers could mutate them. Pure values rule that out here.
- Concurrency: the source has no locking and the model is sequential.
- Logging calls are not modelled.
- The HTTP layer (`app.py`), audio resampling and WAV encoding (`utils.py`), the dataset import script (`preprocess.py`) and the duplicate helpers in `reader.py` are not part of this model.

## Findings

| source | as written | input that shows it | evidently intended | confidence | as-written member | corrected member |
|---|---|---|---|---|---|---|
| file_interface.py:81 | slices the selected list, which for REC and UNREC is a `collections.deque`; a deque rejects a slice with TypeError | `get_page(0, 'unrec')` on a corpus with 10 or more unrecorded prompts | every classification is paged like ALL | high; not executed | CorpusIndex.GetPageAsWritten, CorpusProperties.DequePagesFail | CorpusIndex.GetPage, CorpusProperties.PageIsSlice |
| file_interface.py:187-188 | deletes the recording file only; the key stays in `recorded` and in the recorded deque | `write_audio_buffer('a', b)`, then `remove_recorded_audio('a')`, then `get_item('a', is_buffer=True)` raises FileNotFoundError | drop the recording entry and return the key to the unrecorded deque | medium; not executed | CorpusIndex.RemoveRecordedAudio, CorpusProperties.RemoveLeavesStaleEntry | CorpusIndex.RemoveRecordedAudioFixed, CorpusProperties.FixedRemoveRequeues |

=== FILE: corpus_index.dfy ===
/** The in-memory corpus index of the recording service (`FileInterface`).

    The index pairs each prompt text file with optional reference audio and
    an optional recorded take, all joined by a key derived from the file name.
    It keeps the sorted list of text keys and splits it into the keys that
    have a recording and those that do not.

    The filesystem is abstract: directory listings are given as sequences of
    paths, and file contents live in a `Disk` value that the mutations return
    updated. */
module CorpusIndex {

  import opened Results
  import opened Seqs
  import opened Paths
  import opened Text
  import opened Sorting

  type Key = string

  newtype byte = b: int | 0 <= b < 256

  type Bytes = seq<byte>

  /** Items per page (`nb_pagination`). */
  const PageSize: nat := 10

  /** The extension of every audio file the index writes. */
  const WaveExt: string := ".wav"

  /** The classification a listing or a page is taken from. */
  datatype ListType = All | Rec | Unrec

  /** The token that names each classification, once upper-cased. */
  function ListTypeName(t: ListType): string {
    match t
    case All => "ALL"
    case Rec => "REC"
    case Unrec => "UNREC"
  }

  /** The files the index reads and writes: decoded text files and raw audio. */
  datatype Disk = Disk(texts: map<Path, string>, audio: map<Path, Bytes>)

  /** The index state. `otherKeys` and `recordedKeys` are the two deques
      (`other_key_deque`, `recorded_key_deque`); `keyList` is the sorted list
      of all text keys. */
  datatype FileInterface = FileInterface(
    masterDir: Path,
    textDir: Path,
    waveDir: Path,
    recordedDir: Path,
    texts: map<Key, Path>,
    waves: map<Key, Path>,
    recorded: map<Key, Path>,
    keyList: seq<Key>,
    otherKeys: seq<Key>,
    recordedKeys: seq<Key>)

  /** Both the index and the files it describes. */
  datatype Corpus = Corpus(fi: FileInterface, disk: Disk)

  /** An audio field of an item: the path of the file, or its contents. */
  datatype Audio = AtPath(path: Path) | Buffer(bytes: Bytes)

  /** What `get_item` returns. An absent audio entry is `None` (the source
      uses the empty string). */
  datatype Item = Item(key: Key, text: string, wave: Option<Audio>, recorded: Option<Audio>)

  // ---------------------------------------------------------------------
  // Construction
  // ---------------------------------------------------------------------

  /** The dictionary `{parse_file_name(p): p for p in listing}`: each path is
      filed under its key, a later path overwriting an earlier one. */
  function KeyedMap(listing: seq<Path>): (m: map<Key, Path>)
    ensures forall k :: k in m ==> ParseFileName(m[k]) == k && m[k] in listing
    ensures forall p :: p in listing ==> ParseFileName(p) in m
  {
    if |listing| == 0 then map[]
    else
      var p := listing[|listing| - 1];
      KeyedMap(listing[..|listing| - 1])[ParseFileName(p) := p]
  }

  /** The keys of `KeyedMap(listing)` in dictionary order, that is, in the
      order of their first occurrence in the listing. */
  function KeysInOrder(listing: seq<Path>): (r: seq<Key>)
    ensures NoDup(r)
    ensures forall k :: k in r <==> k in KeyedMap(listing)
  {
    if |listing| == 0 then []
    else
      var init := KeysInOrder(listing[..|listing| - 1]);
      var k := ParseFileName(listing[|listing| - 1]);
      if k in init then init
      else
        assert NoDup(init + [k]) by {
          forall i, j | 0 <= i < j < |init| + 1 ensures (init + [k])[i] != (init + [k])[j] {
            if j == |init| { assert (init + [k])[i] == init[i]; }
          }
        }
        init + [k]
  }

  /** The keys of `keys` that have a recording, in the order of `keys`. */
  function RecordedOf(keys: seq<Key>, rec: map<Key, Path>): (r: seq<Key>)
    ensures forall k :: k in r <==> k in keys && k in rec
    ensures NoDup(keys) ==> NoDup(r)
  {
    if |keys| == 0 then []
    else
      NoDupTail(keys);
      var rest := RecordedOf(keys[1..], rec);
      if keys[0] in rec then
        NoDupCons(keys[0], rest);
        [keys[0]] + rest
      else rest
  }

  /** The keys of `keys` that have no recording, in the order of `keys`. */
  function Unrecorded(keys: seq<Key>, rec: map<Key, Path>): (r: seq<Key>)
    ensures forall k :: k in r <==> k in keys && k !in rec
    ensures NoDup(keys) ==> NoDup(r)
  {
    if |keys| == 0 then []
    else
      NoDupTail(keys);
      var rest := Unrecorded(keys[1..], rec);
      if keys[0] !in rec then
        NoDupCons(keys[0], rest);
        [keys[0]] + rest
      else rest
  }

  /** The keys of `keys` not listed in `d`, in the order of `keys`. */
  function NotListed(keys: seq<Key>, d: seq<Key>): (r: seq<Key>)
    ensures forall k :: k in r <==> k in keys && k !in d
  {
    if |keys| == 0 then []
    else if keys[0] !in d then [keys[0]] + NotListed(keys[1..], d)
    else NotListed(keys[1..], d)
  }

  /** Filtering by absence from a list that holds exactly the recorded keys
      is filtering by absence from the recording map. */
  lemma {:induction false} NotListedIsUnrecorded(keys: seq<Key>, d: seq<Key>, rec: map<Key, Path>)
    requires forall k :: k in keys ==> (k in d <==> k in rec)
    ensures NotListed(keys, d) == Unrecorded(keys, rec)
  {
    if |keys| > 0 {
      NotListedIsUnrecorded(keys[1..], d, rec);
    }
  }

  /** The partition invariant of the index: `keyList` holds each text key
      once; `otherKeys` is the unrecorded text keys in `keyList` order;
      `recordedKeys` holds each recorded text key once. */
  ghost predicate Valid(fi: FileInterface) {
    && NoDup(fi.keyList)
    && (forall k :: k in fi.keyList <==> k in fi.texts)
    && fi.otherKeys == Unrecorded(fi.keyList, fi.recorded)
    && NoDup(fi.recordedKeys)
    && (forall k :: k in fi.recordedKeys <==> k in fi.keyList && k in fi.recorded)
  }

  /** `FileInterface.__init__`: build the three dictionaries from the three
      listings, sort the text keys with `le`, and split them by recording. */
  function Build(masterDir: Path, textListing: seq<Path>, waveListing: seq<Path>,
                 recordedListing: seq<Path>, le: (Key, Key) -> bool): (fi: FileInterface)
    ensures Valid(fi)
    ensures fi.recordedKeys == RecordedOf(fi.keyList, fi.recorded)
    ensures multiset(fi.keyList) == multiset(KeysInOrder(textListing))
    ensures fi.texts == KeyedMap(textListing)
    ensures fi.waves == KeyedMap(waveListing)
    ensures fi.recorded == KeyedMap(recordedListing)
    ensures fi.masterDir == masterDir
    ensures fi.textDir == PathJoin(masterDir, "texts") && fi.waveDir == PathJoin(masterDir, "waves")
    ensures fi.recordedDir == PathJoin(masterDir, "recorded")
  {
    var texts := KeyedMap(textListing);
    var recorded := KeyedMap(recordedListing);
    var order := KeysInOrder(textListing);
    var keyList := Sort(order, le);
    NoDupFromMultiset(keyList, order);
    assert forall k :: k in keyList <==> k in texts by {
      forall k ensures k in keyList <==> k in texts {
        assert k in keyList <==> k in multiset(keyList);
        assert k in order <==> k in multiset(order);
      }
    }
    var recordedKeys := RecordedOf(keyList, recorded);
    NotListedIsUnrecorded(keyList, recordedKeys, recorded);
    FileInterface(
      masterDir,
      PathJoin(masterDir, "texts"),
      PathJoin(masterDir, "waves"),
      PathJoin(masterDir, "recorded"),
      texts,
      KeyedMap(waveListing),
      recorded,
      keyList,
      NotListed(keyList, recordedKeys),
      recordedKeys)
  }

  // ---------------------------------------------------------------------
  // Queries
  // ---------------------------------------------------------------------

  /** `ListType[token.upper()]`; an unknown name is the enum's KeyError. */
  function ParseListType(token: string): (r: Result<ListType>)
    ensures r.Ok? ==> Upper(token) == ListTypeName(r.value)
    ensures r.Err? ==> r.fault == NoSuchListType(token)
    ensures r.Err? ==> forall t :: Upper(token) != ListTypeName(t)
  {
    var u := Upper(token);
    if u == "ALL" then Ok(All)
    else if u == "REC" then Ok(Rec)
    else if u == "UNREC" then Ok(Unrec)
    else Err(NoSuchListType(token))
  }

  /** The key list a classification selects. */
  function Select(fi: FileInterface, t: ListType): (r: seq<Key>)
    ensures t == All ==> r == fi.keyList
    ensures t == Rec ==> r == fi.recordedKeys
    ensures t == Unrec ==> r == fi.otherKeys
    ensures Valid(fi) ==> NoDup(r) && forall k :: k in r ==> k in fi.texts
  {
    match t
    case All => fi.keyList
    case Rec => fi.recordedKeys
    case Unrec => fi.otherKeys
  }

  /** `get_type_list`: the sorted text keys, the recorded keys or the
      unrecorded keys, chosen by a case-insensitive token. */
  function GetTypeList(fi: FileInterface, token: string): (r: Result<seq<Key>>)
    ensures Upper(token) == "ALL" ==> r == Ok(fi.keyList)
    ensures Upper(token) == "REC" ==> r == Ok(fi.recordedKeys)
    ensures Upper(token) == "UNREC" ==> r == Ok(fi.otherKeys)
    ensures Upper(token) !in {"ALL", "REC", "UNREC"} ==> r == Err(NoSuchListType(token))
    ensures Valid(fi) && r.Ok? ==> forall k :: k in r.value ==> k in fi.texts
  {
    var t :- ParseListType(token);
    Ok(Select(fi, t))
  }

  /** `get_nb_pages`: the LENGTH of the selected list, not a page count. */
  function GetNbPages(fi: FileInterface, token: string): (r: Result<nat>)
    ensures r.Ok? <==> GetTypeList(fi, token).Ok?
    ensures r.Ok? ==> r.value == |GetTypeList(fi, token).value|
  {
    var keys :- GetTypeList(fi, token);
    Ok(|keys|)
  }

  /** A map lookup with "absent" as a value (`dict.get(key, '')`). */
  function Lookup(m: map<Key, Path>, key: Key): (r: Option<Path>)
    ensures r.Some? <==> key in m
    ensures r.Some? ==> r.value == m[key]
  {
    if key in m then Some(m[key]) else None
  }

  /** One audio field of an item. With `isBuffer` a non-empty path is read
      from disk, a missing file being an error; otherwise the path is kept. */
  function AudioField(disk: Disk, entry: Option<Path>, isBuffer: bool): (r: Result<Option<Audio>>)
    ensures entry.None? ==> r == Ok(None)
    ensures r.Ok? ==> (r.value.None? <==> entry.None?)
    ensures entry.Some? && isBuffer && entry.value != "" ==>
              (r.Ok? <==> entry.value in disk.audio)
              && (r.Ok? ==> r.value == Some(Buffer(disk.audio[entry.value])))
              && (r.Err? ==> r.fault == FileNotFound(entry.value))
    ensures entry.Some? && (!isBuffer || entry.value == "") ==> r == Ok(Some(AtPath(entry.value)))
  {
    match entry
    case None => Ok(None)
    case Some(p) =>
      if !isBuffer || p == "" then Ok(Some(AtPath(p)))
      else if p in disk.audio then Ok(Some(Buffer(disk.audio[p])))
      else Err(FileNotFound(p))
  }

  /** The audio entry of `key` in `m` can be read: absent, empty (so never
      read), or a file on disk. */
  predicate AudioReadable(disk: Disk, m: map<Key, Path>, key: Key) {
    key !in m || m[key] == "" || m[key] in disk.audio
  }

  /** `get_item`: the prompt text (stripped) with its reference audio and
      recorded take. The text key is required; the audio entries are not.
      Failures come in source order: unknown key, missing text file, missing
      reference audio file, missing recording file. */
  function GetItem(fi: FileInterface, disk: Disk, key: Key, isBuffer: bool): (r: Result<Item>)
    ensures key !in fi.texts ==> r == Err(NoSuchKey(key))
    ensures key in fi.texts && fi.texts[key] !in disk.texts ==> r == Err(FileNotFound(fi.texts[key]))
    ensures !isBuffer ==> (r.Ok? <==> key in fi.texts && fi.texts[key] in disk.texts)
    ensures r.Ok? ==> r.value.key == key
    ensures r.Ok? ==> r.value.text == Strip(disk.texts[fi.texts[key]])
    ensures r.Ok? ==> (r.value.wave.None? <==> key !in fi.waves)
    ensures r.Ok? ==> (r.value.recorded.None? <==> key !in fi.recorded)
    ensures isBuffer ==>
              (r.Ok? <==> key in fi.texts && fi.texts[key] in disk.texts
                          && AudioReadable(disk, fi.waves, key) && AudioReadable(disk, fi.recorded, key))
    ensures r.Ok? && key in fi.waves && (!isBuffer || fi.waves[key] == "") ==>
              r.value.wave == Some(AtPath(fi.waves[key]))
    ensures r.Ok? && key in fi.recorded && (!isBuffer || fi.recorded[key] == "") ==>
              r.value.recorded == Some(AtPath(fi.recorded[key]))
    ensures r.Ok? && isBuffer && key in fi.waves && fi.waves[key] != "" ==>
              fi.waves[key] in disk.audio && r.value.wave == Some(Buffer(disk.audio[fi.waves[key]]))
    ensures r.Ok? && isBuffer && key in fi.recorded && fi.recorded[key] != "" ==>
              fi.recorded[key] in disk.audio && r.value.recorded == Some(Buffer(disk.audio[fi.recorded[key]]))
  {
    if key !in fi.texts then Err(NoSuchKey(key))
    else
      var textPath := fi.texts[key];
      if textPath !in disk.texts then Err(FileNotFound(textPath))
      else
        var text := Strip(disk.texts[textPath]);
        var wave :- AudioField(disk, Lookup(fi.waves, key), isBuffer);
        var recorded :- AudioField(disk, Lookup(fi.recorded, key), isBuffer);
        Ok(Item(key, text, wave, recorded))
  }

  /** The page-bound check and slice of `get_page`: the index must be below
      `|keys| / PageSize` (floor), so a trailing partial page is refused; a
      negative index passes the check and is sliced the Python way. */
  function PageKeys(keys: seq<Key>, idx: int): (r: Result<seq<Key>>)
    ensures r.Ok? <==> idx < |keys| / PageSize
    ensures r.Err? ==> r.fault == PageOutOfRange(idx, |keys| / PageSize)
    ensures r.Ok? && 0 <= idx ==>
              |r.value| == PageSize && r.value == keys[PageSize * idx..PageSize * idx + PageSize]
    ensures idx == -1 && r.Ok? ==> r.value == []
  {
    var nbPages := |keys| / PageSize;
    if !(idx < nbPages) then Err(PageOutOfRange(idx, nbPages))
    else Ok(PySlice(keys, PageSize * idx, PageSize * (idx + 1)))
  }

  /** The items of a page, in page order (`get_item(key, is_buffer=False)`
      for each key); the first failing key decides the error. */
  function PageItems(fi: FileInterface, disk: Disk, keys: seq<Key>): (r: Result<seq<Item>>)
    ensures r.Ok? <==> forall i :: 0 <= i < |keys| ==> GetItem(fi, disk, keys[i], false).Ok?
    ensures r.Ok? ==> |r.value| == |keys|
    ensures r.Ok? ==> forall i :: 0 <= i < |keys| ==> r.value[i] == GetItem(fi, disk, keys[i], false).value
  {
    if |keys| == 0 then Ok([])
    else
      var first :- GetItem(fi, disk, keys[0], false);
      var rest :- PageItems(fi, disk, keys[1..]);
      Ok([first] + rest)
  }

  /** `get_page` exactly as written: the recorded and unrecorded lists are
      `collections.deque` objects, and slicing a deque raises TypeError, so
      only the ALL classification ever yields a page. */
  function GetPageAsWritten(fi: FileInterface, disk: Disk, idx: int, token: string): (r: Result<seq<Item>>)
    ensures ParseListType(token).Err? ==> r == Err(NoSuchListType(token))
    ensures ParseListType(token).Ok? && ParseListType(token).value != All && r.Ok? ==> false
    ensures ParseListType(token).Ok? && idx >= |Select(fi, ParseListType(token).value)| / PageSize ==>
              r == Err(PageOutOfRange(idx, |Select(fi, ParseListType(token).value)| / PageSize))
    ensures ParseListType(token).Ok? && ParseListType(token).value != All
            && idx < |Select(fi, ParseListType(token).value)| / PageSize ==>
              r == Err(DequeNotSliceable)
  {
    var t :- ParseListType(token);
    var pageKeys :- PageKeys(Select(fi, t), idx);
    if t != All then Err(DequeNotSliceable)
    else PageItems(fi, disk, pageKeys)
  }

  /** `get_page` as evidently intended: every classification is paged the
      same way. */
  function GetPage(fi: FileInterface, disk: Disk, idx: int, token: string): (r: Result<seq<Item>>)
    ensures ParseListType(token).Err? ==> r == Err(NoSuchListType(token))
    ensures ParseListType(token).Ok? && idx >= |Select(fi, ParseListType(token).value)| / PageSize ==>
              r == Err(PageOutOfRange(idx, |Select(fi, ParseListType(token).value)| / PageSize))
    ensures r.Ok? && 0 <= idx ==> |r.value| == PageSize
  {
    var t :- ParseListType(token);
    var pageKeys :- PageKeys(Select(fi, t), idx);
    PageItems(fi, disk, pageKeys)
  }

  // ---------------------------------------------------------------------
  // Mutations
  // ---------------------------------------------------------------------

  /** Where the take for `key` is written: `<recorded_dir>/<key>.wav`. */
  function RecordingPath(fi: FileInterface, key: Key): (p: Path)
    ensures |p| >= |key| + |WaveExt| && p[|p| - |key| - |WaveExt|..] == key + WaveExt
    ensures |p| >= |WaveExt| && p[|p| - |WaveExt|..] == WaveExt
    ensures !(|key| > 0 && key[0] == '/') ==>
              |fi.recordedDir| + |key| + |WaveExt| <= |p| && p[..|fi.recordedDir|] == fi.recordedDir
    ensures !(|key| > 0 && key[0] == '/') && (|fi.recordedDir| == 0 || fi.recordedDir[|fi.recordedDir| - 1] == '/') ==>
              p == fi.recordedDir + key + WaveExt
    ensures !(|key| > 0 && key[0] == '/') && |fi.recordedDir| > 0 && fi.recordedDir[|fi.recordedDir| - 1] != '/' ==>
              p == fi.recordedDir + "/" + key + WaveExt
    ensures |key| > 0 && key[0] == '/' ==> p == key + WaveExt
  {
    var d := fi.recordedDir;
    var name := key + WaveExt;
    assert name[|key|..] == WaveExt;
    if |key| > 0 && key[0] == '/' then
      assert name[0] == key[0];
      PathJoin(d, name)
    else if |d| == 0 || d[|d| - 1] == '/' then
      assert name[0] != '/' by {
        if |key| > 0 { assert name[0] == key[0]; } else { assert name[0] == WaveExt[0]; }
      }
      assert d + name == d + key + WaveExt;
      PathJoin(d, name)
    else
      assert name[0] != '/' by {
        if |key| > 0 { assert name[0] == key[0]; } else { assert name[0] == WaveExt[0]; }
      }
      assert d + "/" + name == d + "/" + key + WaveExt;
      PathJoin(d, name)
  }

  /** `write_audio_buffer`: store the bytes at the recording path, file the
      path under the key, and if the key was unrecorded move it from the
      unrecorded deque to the front of the recorded deque. */
  function WriteAudioBuffer(c: Corpus, key: Key, buffer: Bytes): (r: Corpus)
    ensures r.disk.audio == c.disk.audio[RecordingPath(c.fi, key) := buffer]
    ensures r.disk.texts == c.disk.texts
    ensures r.fi.recorded == c.fi.recorded[key := RecordingPath(c.fi, key)]
    ensures r.fi.(recorded := c.fi.recorded, otherKeys := c.fi.otherKeys, recordedKeys := c.fi.recordedKeys) == c.fi
    ensures key in c.fi.otherKeys ==>
              r.fi.otherKeys == RemoveFirst(c.fi.otherKeys, key) && r.fi.recordedKeys == [key] + c.fi.recordedKeys
    ensures key !in c.fi.otherKeys ==>
              r.fi.otherKeys == c.fi.otherKeys && r.fi.recordedKeys == c.fi.recordedKeys
  {
    var path := RecordingPath(c.fi, key);
    var disk := c.disk.(audio := c.disk.audio[path := buffer]);
    var fi := c.fi.(recorded := c.fi.recorded[key := path]);
    if key in fi.otherKeys then
      Corpus(fi.(otherKeys := RemoveFirst(fi.otherKeys, key), recordedKeys := [key] + fi.recordedKeys), disk)
    else
      Corpus(fi, disk)
  }

  /** `remove_recorded_audio` exactly as written: delete the recording file
      and nothing else; the index still lists the key as recorded. */
  function RemoveRecordedAudio(c: Corpus, key: Key): (r: Result<Corpus>)
    ensures key !in c.fi.recorded ==> r == Err(NoSuchKey(key))
    ensures key in c.fi.recorded ==> (r.Ok? <==> c.fi.recorded[key] in c.disk.audio)
    ensures key in c.fi.recorded && r.Err? ==> r.fault == FileNotFound(c.fi.recorded[key])
    ensures r.Ok? ==> r.value.fi == c.fi
    ensures r.Ok? ==> r.value.disk == c.disk.(audio := c.disk.audio - {c.fi.recorded[key]})
  {
    if key !in c.fi.recorded then Err(NoSuchKey(key))
    else
      var path := c.fi.recorded[key];
      if path !in c.disk.audio then Err(FileNotFound(path))
      else Ok(c.(disk := c.disk.(audio := c.disk.audio - {path})))
  }

  /** Removal as evidently intended: delete the file, drop the recording
      entry, take the key out of the recorded deque and put it back into the
      unrecorded deque at its place in `keyList`. */
  function RemoveRecordedAudioFixed(c: Corpus, key: Key): (r: Result<Corpus>)
    ensures key !in c.fi.recorded ==> r == Err(NoSuchKey(key))
    ensures key in c.fi.recorded ==> (r.Ok? <==> c.fi.recorded[key] in c.disk.audio)
    ensures r.Ok? ==> r.value.disk == c.disk.(audio := c.disk.audio - {c.fi.recorded[key]})
    ensures r.Ok? ==> r.value.fi.recorded == c.fi.recorded - {key}
    ensures r.Ok? ==> r.value.fi.keyList == c.fi.keyList && r.value.fi.texts == c.fi.texts
    ensures r.Ok? ==> r.value.fi.recordedKeys == RemoveFirst(c.fi.recordedKeys, key)
    ensures r.Ok? ==> r.value.fi.otherKeys == Unrecorded(c.fi.keyList, r.value.fi.recorded)
    ensures r.Ok? ==>
              r.value.fi.(recorded := c.fi.recorded, recordedKeys := c.fi.recordedKeys, otherKeys := c.fi.otherKeys) == c.fi
  {
    if key !in c.fi.recorded then Err(NoSuchKey(key))
    else
      var path := c.fi.recorded[key];
      if path !in c.disk.audio then Err(FileNotFound(path))
      else
        var recorded := c.fi.recorded - {key};
        var fi := c.fi.(
          recorded := recorded,
          recordedKeys := RemoveFirst(c.fi.recordedKeys, key),
          otherKeys := Unrecorded(c.fi.keyList, recorded));
        Ok(Corpus(fi, c.disk.(audio := c.disk.audio - {path})))
  }
}

=== FILE: corpus_properties.dfy ===
/** Properties of the corpus index: what construction establishes, what the
    queries return, what each mutation preserves, and the two places where
    the code as written departs from what it evidently intends. */
module CorpusProperties {

  import opened Results
  import opened Seqs
  import opened Paths
  import opened Text
  import opened Sorting
  import opened CorpusIndex

  /** Every text file the index knows about is present on disk. */
  ghost predicate TextsOnDisk(fi: FileInterface, disk: Disk) {
    forall k :: k in fi.texts ==> fi.texts[k] in disk.texts
  }

  // ---------------------------------------------------------------------
  // Construction
  // ---------------------------------------------------------------------

  /** When two paths of a listing yield the same key, the dictionary keeps
      the later one: a path with no later path of the same key is the one
      filed under that key. */
  lemma {:induction false} LaterPathWins(listing: seq<Path>, i: nat)
    requires i < |listing|
    requires forall j :: i < j < |listing| ==> ParseFileName(listing[j]) != ParseFileName(listing[i])
    ensures KeyedMap(listing)[ParseFileName(listing[i])] == listing[i]
  {
    if i < |listing| - 1 {
      var init := listing[..|listing| - 1];
      var k := ParseFileName(listing[i]);
      assert ParseFileName(init[i]) == k by {
        assert init[i] == listing[i];
      }
      assert forall j :: i < j < |init| ==> ParseFileName(init[j]) != k by {
        forall j | i < j < |init| ensures ParseFileName(init[j]) != k {
          assert init[j] == listing[j];
        }
      }
      LaterPathWins(init, i);
    }
  }

  /** With a total-preorder comparison the key list is sorted by it. */
  lemma BuildSortsKeys(masterDir: Path, textListing: seq<Path>, waveListing: seq<Path>,
                       recordedListing: seq<Path>, le: (Key, Key) -> bool)
    requires TotalPreorder(le)
    ensures Sorted(Build(masterDir, textListing, waveListing, recordedListing, le).keyList, le)
  {
    SortSorted(KeysInOrder(textListing), le);
  }

  /** The key list holds exactly the keys of the text listing, each once; a
      key is recorded initially exactly when the recorded listing has a file
      for it, and both deques follow the key list order. */
  lemma BuildKeys(masterDir: Path, textListing: seq<Path>, waveListing: seq<Path>,
                  recordedListing: seq<Path>, le: (Key, Key) -> bool)
    ensures var fi := Build(masterDir, textListing, waveListing, recordedListing, le);
      && NoDup(fi.keyList)
      && (forall p :: p in textListing ==> ParseFileName(p) in fi.keyList)
      && (forall k :: k in fi.keyList ==> exists p :: p in textListing && ParseFileName(p) == k)
      && (forall k :: k in fi.recordedKeys <==>
            k in fi.keyList && exists p :: p in recordedListing && ParseFileName(p) == k)
      && fi.otherKeys == Unrecorded(fi.keyList, fi.recorded)
  {
    var fi := Build(masterDir, textListing, waveListing, recordedListing, le);
    forall k | k in fi.keyList ensures exists p :: p in textListing && ParseFileName(p) == k {
      assert ParseFileName(fi.texts[k]) == k;
    }
    forall k | k in fi.recordedKeys ensures exists p :: p in recordedListing && ParseFileName(p) == k {
      assert ParseFileName(fi.recorded[k]) == k;
    }
  }

  // ---------------------------------------------------------------------
  // The partition invariant
  // ---------------------------------------------------------------------

  /** The two deques split the key list: no key is in both, every key is in
      one, and their lengths add up to the length of the key list. */
  lemma PartitionOfKeyList(fi: FileInterface)
    requires Valid(fi)
    ensures forall k :: !(k in fi.recordedKeys && k in fi.otherKeys)
    ensures forall k :: k in fi.keyList <==> k in fi.recordedKeys || k in fi.otherKeys
    ensures |fi.recordedKeys| + |fi.otherKeys| == |fi.keyList|
  {
    NoDupCard(fi.keyList);
    NoDupCard(fi.recordedKeys);
    NoDupCard(fi.otherKeys);
    assert Elems(fi.keyList) == Elems(fi.recordedKeys) + Elems(fi.otherKeys);
    assert Elems(fi.recordedKeys) !! Elems(fi.otherKeys);
  }

  // ---------------------------------------------------------------------
  // Queries
  // ---------------------------------------------------------------------

  /** `token` spells `name` up to the case of its ASCII letters. */
  ghost predicate MatchesIgnoringCase(token: string, name: string) {
    && |token| == |name|
    && forall i :: 0 <= i < |token| ==> token[i] == name[i] || token[i] as int == name[i] as int + 32
  }

  /** Only upper-case ASCII letters. */
  ghost predicate UpperLetters(name: string) {
    forall i :: 0 <= i < |name| ==> 'A' <= name[i] <= 'Z'
  }

  lemma UpperMatches(token: string, name: string)
    requires UpperLetters(name)
    ensures Upper(token) == name <==> MatchesIgnoringCase(token, name)
  {
    if MatchesIgnoringCase(token, name) {
      assert forall i :: 0 <= i < |token| ==> Upper(token)[i] == name[i];
    }
  }

  /** A token selects a classification exactly when it spells that
      classification's name in any mix of upper- and lower-case letters. */
  lemma ListTypeTokens(token: string, t: ListType)
    ensures ParseListType(token) == Ok(t) <==> MatchesIgnoringCase(token, ListTypeName(t))
  {
    UpperMatches(token, ListTypeName(t));
  }

  /** Every key of a list drawn from the text keys yields an item. */
  lemma {:induction false} PageItemsSucceed(fi: FileInterface, disk: Disk, keys: seq<Key>)
    requires TextsOnDisk(fi, disk)
    requires forall k :: k in keys ==> k in fi.texts
    ensures PageItems(fi, disk, keys).Ok?
  {
    forall i | 0 <= i < |keys| ensures GetItem(fi, disk, keys[i], false).Ok? {
      assert keys[i] in keys;
    }
  }

  /** A valid page holds exactly `PageSize` items, in the order of the
      selected list's slice `[PageSize * idx, PageSize * idx + PageSize)`,
      and a page index exists exactly when it is below `get_nb_pages / 10`. */
  lemma PageIsSlice(fi: FileInterface, disk: Disk, idx: int, token: string)
    requires Valid(fi) && TextsOnDisk(fi, disk)
    requires GetNbPages(fi, token).Ok?
    ensures GetPage(fi, disk, idx, token).Ok? <==> idx < GetNbPages(fi, token).value / PageSize
    ensures GetPage(fi, disk, idx, token).Ok? && 0 <= idx ==>
      && |GetPage(fi, disk, idx, token).value| == PageSize
      && forall i :: 0 <= i < PageSize ==>
           GetPage(fi, disk, idx, token).value[i].key == GetTypeList(fi, token).value[PageSize * idx + i]
  {
    TypeListIsSelected(fi, token);
    PageExists(fi, disk, idx, ParseListType(token).value, token);
    PageHoldsSlice(fi, disk, idx, ParseListType(token).value, token);
  }

  /** A known token lists, and counts, the keys its classification selects. */
  lemma TypeListIsSelected(fi: FileInterface, token: string)
    requires ParseListType(token).Ok?
    ensures GetTypeList(fi, token) == Ok(Select(fi, ParseListType(token).value))
    ensures GetNbPages(fi, token) == Ok(|Select(fi, ParseListType(token).value)|)
  {
  }

  /** The page-exists half of `PageIsSlice`. */
  lemma PageExists(fi: FileInterface, disk: Disk, idx: int, t: ListType, token: string)
    requires Valid(fi) && TextsOnDisk(fi, disk)
    requires ParseListType(token) == Ok(t)
    ensures GetPage(fi, disk, idx, token).Ok? <==> idx < |Select(fi, t)| / PageSize
  {
    GetPageUnfolds(fi, disk, idx, token);
    if PageKeys(Select(fi, t), idx).Ok? {
      PagedKeysYieldItems(fi, disk, Select(fi, t), idx);
    }
  }

  /** The slice half of `PageIsSlice`: a non-negative page lists the items
      of the ten keys from `PageSize * idx` on, in order. */
  lemma PageHoldsSlice(fi: FileInterface, disk: Disk, idx: int, t: ListType, token: string)
    requires ParseListType(token) == Ok(t)
    ensures GetPage(fi, disk, idx, token).Ok? && 0 <= idx ==>
      && |GetPage(fi, disk, idx, token).value| == PageSize
      && forall i :: 0 <= i < PageSize ==>
           GetPage(fi, disk, idx, token).value[i].key == Select(fi, t)[PageSize * idx + i]
  {
    var keys := Select(fi, t);
    var page := GetPage(fi, disk, idx, token);
    if page.Ok? && 0 <= idx {
      var pk := PageKeys(keys, idx);
      assert pk.Ok? && PageItems(fi, disk, pk.value) == Ok(page.value) by {
        GetPageUnfolds(fi, disk, idx, token);
      }
      assert forall i :: 0 <= i < PageSize ==> pk.value[i] == keys[PageSize * idx + i];
      ItemsKeepKeys(fi, disk, pk.value, page.value);
    }
  }

  /** The items of a page carry the page's keys, in order. */
  lemma ItemsKeepKeys(fi: FileInterface, disk: Disk, keys: seq<Key>, items: seq<Item>)
    requires PageItems(fi, disk, keys) == Ok(items)
    ensures |items| == |keys|
    ensures forall i :: 0 <= i < |keys| ==> items[i].key == keys[i]
  {
    forall i | 0 <= i < |keys| ensures items[i].key == keys[i] {
      assert items[i] == GetItem(fi, disk, keys[i], false).value;
    }
  }

  /** `GetPage` for a known classification is the page of its list. */
  lemma GetPageUnfolds(fi: FileInterface, disk: Disk, idx: int, token: string)
    requires ParseListType(token).Ok?
    ensures var pk := PageKeys(Select(fi, ParseListType(token).value), idx);
      GetPage(fi, disk, idx, token) == if pk.Ok? then PageItems(fi, disk, pk.value) else Err(pk.fault)
  {
  }

  /** Any page of text keys whose files exist yields its items. */
  lemma PagedKeysYieldItems(fi: FileInterface, disk: Disk, keys: seq<Key>, idx: int)
    requires TextsOnDisk(fi, disk)
    requires forall k :: k in keys ==> k in fi.texts
    requires PageKeys(keys, idx).Ok?
    ensures PageItems(fi, disk, PageKeys(keys, idx).value).Ok?
  {
    TrailingKeysNeverPaged(keys, idx);
    var page := PageKeys(keys, idx).value;
    forall k | k in page ensures k in fi.texts {
      assert k in keys[..PageSize * (|keys| / PageSize)];
    }
    PageItemsSucceed(fi, disk, page);
  }

  /** Keys past the last full page are on no page: whatever the index
      (negative ones included), a page only holds keys from the first
      `PageSize * (|keys| / PageSize)` positions. */
  lemma TrailingKeysNeverPaged(keys: seq<Key>, idx: int)
    requires PageKeys(keys, idx).Ok?
    ensures forall k :: k in PageKeys(keys, idx).value ==> k in keys[..PageSize * (|keys| / PageSize)]
  {
    var n := |keys|;
    var full := PageSize * (n / PageSize);
    var start := PageSize * idx;
    var stop := PageSize * (idx + 1);
    var a := SliceBound(start, n);
    var b := SliceBound(stop, n);
    assert b <= full by {
      if idx >= 0 {
        assert stop <= full;
      } else if stop == 0 {
        assert b == 0;
      } else {
        assert stop + PageSize <= 0;
      }
    }
    var page := PageKeys(keys, idx).value;
    forall k | k in page ensures k in keys[..full] {
      var j :| 0 <= j < |page| && page[j] == k;
      assert a < b && page == keys[a..b];
      assert keys[a + j] == keys[..full][a + j];
    }
  }

  /** FINDING (as written): every in-range page of the recorded or unrecorded
      classification fails with TypeError, because those lists are deques;
      the intended page exists and holds `PageSize` items. */
  lemma DequePagesFail(fi: FileInterface, disk: Disk, idx: nat, token: string)
    requires Valid(fi) && TextsOnDisk(fi, disk)
    requires ParseListType(token).Ok? && ParseListType(token).value != All
    requires idx < |Select(fi, ParseListType(token).value)| / PageSize
    ensures GetPageAsWritten(fi, disk, idx, token) == Err(DequeNotSliceable)
    ensures GetPage(fi, disk, idx, token).Ok? && |GetPage(fi, disk, idx, token).value| == PageSize
  {
    PageIsSlice(fi, disk, idx, token);
  }

  /** For the ALL classification the code as written and the intended paging
      agree on every index. */
  lemma AsWrittenPagesAll(fi: FileInterface, disk: Disk, idx: int, token: string)
    requires ParseListType(token) == Ok(All)
    ensures GetPageAsWritten(fi, disk, idx, token) == GetPage(fi, disk, idx, token)
  {
  }

  // ---------------------------------------------------------------------
  // Writing a recording
  // ---------------------------------------------------------------------

  /** Recording a key removes it from the unrecorded keys by removing its
      single occurrence from the unrecorded list. */
  lemma {:induction false} UnrecordedAfterRecording(keys: seq<Key>, rec: map<Key, Path>, key: Key, p: Path)
    requires NoDup(keys)
    ensures Unrecorded(keys, rec[key := p]) == RemoveFirst(Unrecorded(keys, rec), key)
  {
    if |keys| > 0 {
      NoDupTail(keys);
      UnrecordedAfterRecording(keys[1..], rec, key, p);
      if keys[0] == key && key !in rec {
        assert key !in Unrecorded(keys[1..], rec);
      }
    }
  }

  /** Writing a recording keeps the partition invariant and never touches
      the key list, the text map or the reference-audio map. */
  lemma WritePreservesValid(c: Corpus, key: Key, buffer: Bytes)
    requires Valid(c.fi)
    ensures var r := WriteAudioBuffer(c, key, buffer);
      && Valid(r.fi)
      && r.fi.keyList == c.fi.keyList
      && r.fi.texts == c.fi.texts
      && r.fi.waves == c.fi.waves
  {
    var r := WriteAudioBuffer(c, key, buffer);
    UnrecordedAfterRecording(c.fi.keyList, c.fi.recorded, key, RecordingPath(c.fi, key));
    if key in c.fi.otherKeys {
      NoDupCons(key, c.fi.recordedKeys);
    }
  }

  /** After a write the key is recorded and no longer unrecorded; a key
      that was unrecorded is now at the front of the recorded list; every
      other key keeps its classification and its recording entry. */
  lemma WriteRecordsKey(c: Corpus, key: Key, buffer: Bytes)
    requires Valid(c.fi)
    ensures var r := WriteAudioBuffer(c, key, buffer);
      && key in r.fi.recorded
      && key !in r.fi.otherKeys
      && (key in c.fi.keyList ==> key in r.fi.recordedKeys)
      && (key in c.fi.otherKeys ==> r.fi.recordedKeys[0] == key)
      && r.disk.audio[r.fi.recorded[key]] == buffer
      && (forall k :: k != key ==>
            && (k in r.fi.otherKeys <==> k in c.fi.otherKeys)
            && (k in r.fi.recordedKeys <==> k in c.fi.recordedKeys)
            && (k in r.fi.recorded <==> k in c.fi.recorded)
            && (k in c.fi.recorded ==> r.fi.recorded[k] == c.fi.recorded[k]))
  {
    WritePreservesValid(c, key, buffer);
  }

  /** Round trip: reading the item back with audio contents returns exactly
      the bytes just written as its recording; the read succeeds whenever
      its text file and reference audio can be read. */
  lemma WriteThenGetItem(c: Corpus, key: Key, buffer: Bytes)
    ensures var r := WriteAudioBuffer(c, key, buffer);
      var item := GetItem(r.fi, r.disk, key, true);
      && (item.Ok? ==> item.value.recorded == Some(Buffer(buffer)))
      && ((key in c.fi.texts && c.fi.texts[key] in c.disk.texts
           && AudioField(r.disk, Lookup(c.fi.waves, key), true).Ok?) ==> item.Ok?)
  {
    var p := RecordingPath(c.fi, key);
    assert p != "";
  }

  /** A key with no `.` or `/` names its recording file so that the key
      derivation gives the key back: a later scan of the recorded directory
      would file the take under the same key. */
  lemma RecordingPathParsesBack(fi: FileInterface, key: Key)
    requires '.' !in key && '/' !in key
    ensures ParseFileName(RecordingPath(fi, key)) == key
  {
    JoinedFileNameParses(fi.recordedDir, key, WaveExt);
  }

  // ---------------------------------------------------------------------
  // Removing a recording
  // ---------------------------------------------------------------------

  /** FINDING (as written): removal deletes the file but the index still
      lists the key as recorded, so reading the item's audio afterwards
      fails on the missing file while the path-only view still shows it. */
  lemma RemoveLeavesStaleEntry(c: Corpus, key: Key)
    requires Valid(c.fi)
    requires RemoveRecordedAudio(c, key).Ok?
    requires key in c.fi.texts && c.fi.texts[key] in c.disk.texts
    requires AudioField(c.disk, Lookup(c.fi.waves, key), true).Ok?
    requires key in c.fi.waves ==> c.fi.waves[key] != c.fi.recorded[key]
    requires c.fi.recorded[key] != ""
    ensures var r := RemoveRecordedAudio(c, key).value;
      && Valid(r.fi)
      && key in r.fi.recorded && key in r.fi.recordedKeys
      && r.fi.recorded[key] !in r.disk.audio
      && GetItem(r.fi, r.disk, key, true) == Err(FileNotFound(c.fi.recorded[key]))
      && GetItem(r.fi, r.disk, key, false).value.recorded == Some(AtPath(c.fi.recorded[key]))
  {
    var r := RemoveRecordedAudio(c, key).value;
    var p := c.fi.recorded[key];
    assert p in c.disk.audio;
    if key in c.fi.waves && c.fi.waves[key] != "" {
      assert c.fi.waves[key] in r.disk.audio;
    }
  }

  /** The intended removal keeps the partition invariant and undoes the
      recording: the key has no recording entry, is back among the
      unrecorded keys in key-list order, and its item has no recorded audio. */
  lemma FixedRemoveRequeues(c: Corpus, key: Key)
    requires Valid(c.fi)
    requires RemoveRecordedAudioFixed(c, key).Ok?
    requires key in c.fi.texts && c.fi.texts[key] in c.disk.texts
    ensures var r := RemoveRecordedAudioFixed(c, key).value;
      && Valid(r.fi)
      && key !in r.fi.recorded
      && key !in r.fi.recordedKeys
      && key in r.fi.otherKeys
      && GetItem(r.fi, r.disk, key, false).value.recorded == None
  {
    var r := RemoveRecordedAudioFixed(c, key).value;
    RemoveFirstNoDup(c.fi.recordedKeys, key);
  }
}

=== FILE: paths.dfy ===
/** POSIX path helpers as the index uses them: `os.path.join` of two parts,
    `os.path.basename`, and the key derivation `parse_file_name`. */
module Paths {

  type Path = string

  /** `os.path.join(a, b)`: an absolute `b` replaces `a`; otherwise a single
      separator is put between them unless `a` is empty or already ends in one. */
  function PathJoin(a: Path, b: Path): (r: Path)
    ensures |b| > 0 && b[0] == '/' ==> r == b
    ensures |b| <= |r| && r[|r| - |b|..] == b
    ensures |r| > |b| ==> r[|r| - |b| - 1] == '/'
    ensures !(|b| > 0 && b[0] == '/') ==> |a| <= |r| && r[..|a|] == a && |a| + |b| <= |r| <= |a| + 1 + |b|
    ensures !(|b| > 0 && b[0] == '/') ==> (|r| == |a| + |b| <==> |a| == 0 || a[|a| - 1] == '/')
  {
    if |b| > 0 && b[0] == '/' then b
    else if |a| == 0 || a[|a| - 1] == '/' then a + b
    else a + "/" + b
  }

  /** `os.path.basename(p)`: everything after the last `/`. */
  function Basename(p: Path): (b: string)
    ensures '/' !in b
    ensures |b| <= |p| && b == p[|p| - |b|..]
    ensures |b| < |p| ==> p[|p| - |b| - 1] == '/'
  {
    if |p| == 0 then p
    else if p[|p| - 1] == '/' then ""
    else Basename(p[..|p| - 1]) + [p[|p| - 1]]
  }

  /** `s.split('.')[0]`: the part of `s` before its first `.`. */
  function UpToDot(s: string): (r: string)
    ensures '.' !in r
    ensures |r| <= |s| && r == s[..|r|]
    ensures |r| < |s| ==> s[|r|] == '.'
  {
    if |s| == 0 || s[0] == '.' then ""
    else [s[0]] + UpToDot(s[1..])
  }

  /** The prompt key of a file: its base name up to the first `.`. */
  function ParseFileName(p: Path): (k: string)
    ensures '.' !in k && '/' !in k
    ensures |k| <= |Basename(p)| && k == Basename(p)[..|k|]
    ensures |k| < |Basename(p)| ==> Basename(p)[|k|] == '.'
  {
    UpToDot(Basename(p))
  }

  /** The base name of `x + b` is `b` when `b` has no separator and `x` ends
      where a path component ends. */
  lemma {:induction false} BasenameOfLastComponent(x: Path, b: string)
    requires '/' !in b
    requires |x| == 0 || x[|x| - 1] == '/'
    ensures Basename(x + b) == b
  {
    if |b| > 0 {
      var p := x + b;
      var init := b[..|b| - 1];
      assert p[..|p| - 1] == x + init;
      assert p[|p| - 1] == b[|b| - 1] && b[|b| - 1] in b;
      BasenameOfLastComponent(x, init);
      assert Basename(p) == Basename(x + init) + [b[|b| - 1]];
      assert b == init + [b[|b| - 1]];
    } else {
      assert x + b == x;
    }
  }

  /** Text ending at a `.` splits back to the text before it. */
  lemma {:induction false} UpToDotOfDotted(k: string, ext: string)
    requires '.' !in k
    requires |ext| > 0 && ext[0] == '.'
    ensures UpToDot(k + ext) == k
  {
    if |k| > 0 {
      assert (k + ext)[1..] == k[1..] + ext;
      UpToDotOfDotted(k[1..], ext);
    } else {
      assert k + ext == ext;
    }
  }

  /** Key derivation inverts file naming: the file `<dir>/<key><ext>` parses
      back to `key` whenever the key has no `.` or `/` and the extension
      starts with `.`. */
  lemma JoinedFileNameParses(dir: Path, key: string, ext: string)
    requires '.' !in key && '/' !in key
    requires |ext| > 0 && ext[0] == '.' && '/' !in ext
    ensures ParseFileName(PathJoin(dir, key + ext)) == key
  {
    var b := key + ext;
    assert b[0] != '/' by {
      if |key| > 0 { assert b[0] == key[0]; } else { assert b[0] == ext[0]; }
    }
    assert '/' !in b by {
      forall i | 0 <= i < |b| ensures b[i] != '/' {
        if i < |key| { assert b[i] == key[i]; } else { assert b[i] == ext[i - |key|]; }
      }
    }
    if |dir| == 0 || dir[|dir| - 1] == '/' {
      BasenameOfLastComponent(dir, b);
    } else {
      assert PathJoin(dir, b) == (dir + "/") + b;
      BasenameOfLastComponent(dir + "/", b);
    }
    UpToDotOfDotted(key, ext);
  }
}

=== FILE: results.dfy ===
/** Failure-carrying values for the corpus index. The source signals every
    failure with a Python exception; here each exception becomes a `Fault`
    carried by `Err`, so that callers (and proofs) see the error path. */
module Results {

  /** An optional value (the source uses the empty string for "absent"). */
  datatype Option<+T> = None | Some(value: T)

  /** The exceptions the index raises, one constructor per cause. */
  datatype Fault =
    | NoSuchListType(token: string)         // KeyError from the ListType[...] lookup
    | PageOutOfRange(idx: int, nbPages: int) // AssertionError from the page-bound assert
    | DequeNotSliceable                      // TypeError: a deque does not accept a slice
    | NoSuchKey(key: string)                 // KeyError from a required map lookup
    | FileNotFound(path: string)             // FileNotFoundError from open / os.remove

  datatype Result<+T> = Ok(value: T) | Err(fault: Fault) {

    predicate IsFailure() {
      Err?
    }

    function PropagateFailure<U>(): Result<U>
      requires Err?
    {
      Err(fault)
    }

    function Extract(): T
      requires Ok?
    {
      value
    }
  }
}

=== FILE: seqs.dfy ===
/** Sequence facts used by the index: duplicate freedom, the first-occurrence
    removal performed by `deque.remove`, and Python's slice semantics. */
module Seqs {

  /** No element occurs twice. */
  ghost predicate NoDup<T>(s: seq<T>) {
    forall i, j :: 0 <= i < j < |s| ==> s[i] != s[j]
  }

  /** The set of elements of a sequence. */
  ghost function Elems<T>(s: seq<T>): set<T> {
    set x | x in s
  }

  /** Removes the first occurrence of `x`; a sequence without `x` is returned
      unchanged (Python's `remove` raises instead, but the index only calls it
      after a membership test). */
  function RemoveFirst<T(==)>(s: seq<T>, x: T): (r: seq<T>)
    ensures x in s ==> |r| == |s| - 1
    ensures x !in s ==> r == s
    ensures forall y :: y in r ==> y in s
    ensures forall y :: y in s && y != x ==> y in r
  {
    if |s| == 0 then s
    else if s[0] == x then s[1..]
    else [s[0]] + RemoveFirst(s[1..], x)
  }

  /** Removing the first occurrence cuts the sequence at the first index
      holding `x` and keeps the order of everything else. */
  lemma {:induction false} RemoveFirstSplits<T>(s: seq<T>, x: T) returns (i: nat)
    requires x in s
    ensures i < |s| && s[i] == x && x !in s[..i]
    ensures RemoveFirst(s, x) == s[..i] + s[i + 1..]
  {
    if s[0] == x {
      i := 0;
    } else {
      var j := RemoveFirstSplits(s[1..], x);
      i := j + 1;
      assert s[1..][..j] == s[1..i];
      assert s[..i] == [s[0]] + s[1..i];
      assert s[1..][j + 1..] == s[i + 1..];
    }
  }

  /** In a duplicate-free sequence the removed element is gone for good and
      no duplicate appears. */
  lemma {:induction false} RemoveFirstNoDup<T>(s: seq<T>, x: T)
    requires NoDup(s)
    ensures x !in RemoveFirst(s, x)
    ensures NoDup(RemoveFirst(s, x))
  {
    if |s| > 0 {
      if s[0] == x {
        assert x !in s[1..] by {
          forall k | 0 <= k < |s| - 1 ensures s[1..][k] != x {
            assert s[k + 1] != s[0];
          }
        }
      } else {
        RemoveFirstNoDup(s[1..], x);
        var t := RemoveFirst(s[1..], x);
        assert s[0] !in t by {
          forall k | 0 <= k < |s| - 1 ensures s[1..][k] != s[0] {
            assert s[k + 1] != s[0];
          }
        }
      }
    }
  }

  /** Splitting off the head of a duplicate-free sequence. */
  lemma NoDupTail<T>(s: seq<T>)
    requires |s| > 0
    ensures NoDup(s) ==> NoDup(s[1..]) && s[0] !in s[1..]
  {
    if NoDup(s) {
      forall k | 0 <= k < |s| - 1 ensures s[1..][k] != s[0] {
        assert s[k + 1] != s[0];
      }
    }
  }

  /** Prepending a new element keeps a sequence duplicate free. */
  lemma NoDupCons<T>(x: T, t: seq<T>)
    ensures NoDup(t) && x !in t ==> NoDup([x] + t)
  {
  }

  /** A duplicate-free sequence has as many elements as its set. */
  lemma {:induction false} NoDupCard<T>(s: seq<T>)
    requires NoDup(s)
    ensures |Elems(s)| == |s|
  {
    if |s| > 0 {
      var t := s[1..];
      assert NoDup(t);
      NoDupCard(t);
      assert s[0] !in t by {
        forall k | 0 <= k < |t| ensures t[k] != s[0] {
          assert s[k + 1] != s[0];
        }
      }
      assert Elems(s) == {s[0]} + Elems(t);
    }
  }

  /** Python's normalisation of one slice bound: a negative bound counts from
      the end, and the result is clamped to `0 ..= n`. */
  function SliceBound(i: int, n: nat): (r: nat)
    ensures r <= n
    ensures 0 <= i <= n ==> r == i
    ensures i + n < 0 ==> r == 0
    ensures i < 0 <= i + n ==> r == i + n
    ensures n < i ==> r == n
  {
    var j := if i < 0 then i + n else i;
    if j < 0 then 0 else if j > n then n else j
  }

  /** Python's `s[start:stop]` with step 1. */
  function PySlice<T>(s: seq<T>, start: int, stop: int): (r: seq<T>)
    ensures 0 <= start <= stop <= |s| ==> r == s[start..stop]
    ensures |r| <= |s|
    ensures stop == 0 ==> r == []
  {
    var a := SliceBound(start, |s|);
    var b := SliceBound(stop, |s|);
    if a < b then s[a..b] else []
  }
}

=== FILE: sorting.dfy ===
/** The key ordering. The index sorts its keys with an external natural-sort
    library; the model takes that library's comparison as a parameter `le`
    ("sorts no later than") and sorts by stable insertion. */
module Sorting {

  import opened Seqs

  /** `le` compares every pair and is transitive, as a sort key comparison is. */
  ghost predicate TotalPreorder<T(!new)>(le: (T, T) -> bool) {
    && (forall a, b :: le(a, b) || le(b, a))
    && (forall a, b, c :: le(a, b) && le(b, c) ==> le(a, c))
  }

  /** Every element sorts no later than every element after it. */
  ghost predicate Sorted<T>(s: seq<T>, le: (T, T) -> bool) {
    forall i, j :: 0 <= i < j < |s| ==> le(s[i], s[j])
  }

  /** Inserts `x` before the first element it sorts no later than. */
  function Insert<T>(x: T, s: seq<T>, le: (T, T) -> bool): (r: seq<T>)
    ensures multiset(r) == multiset(s) + multiset{x}
  {
    if |s| == 0 then [x]
    else if le(x, s[0]) then [x] + s
    else
      assert s == [s[0]] + s[1..];
      [s[0]] + Insert(x, s[1..], le)
  }

  /** Insertion sort; it keeps elements that compare equal in input order. */
  function Sort<T>(s: seq<T>, le: (T, T) -> bool): (r: seq<T>)
    ensures multiset(r) == multiset(s)
  {
    if |s| == 0 then []
    else
      assert s == [s[0]] + s[1..];
      Insert(s[0], Sort(s[1..], le), le)
  }

  lemma {:induction false} InsertSorted<T(!new)>(x: T, s: seq<T>, le: (T, T) -> bool)
    requires TotalPreorder(le)
    requires Sorted(s, le)
    ensures Sorted(Insert(x, s, le), le)
  {
    if |s| > 0 && !le(x, s[0]) {
      var t := s[1..];
      assert Sorted(t, le);
      InsertSorted(x, t, le);
      var u := Insert(x, t, le);
      forall j | 0 <= j < |u| ensures le(s[0], u[j]) {
        assert u[j] in multiset(u);
        if u[j] != x {
          assert u[j] in multiset(t);
          var k :| 0 <= k < |t| && t[k] == u[j];
          assert t[k] == s[k + 1];
        }
      }
    }
  }

  /** The sorted keys really are sorted when the comparison is a total preorder. */
  lemma {:induction false} SortSorted<T(!new)>(s: seq<T>, le: (T, T) -> bool)
    requires TotalPreorder(le)
    ensures Sorted(Sort(s, le), le)
  {
    if |s| > 0 {
      SortSorted(s[1..], le);
      InsertSorted(s[0], Sort(s[1..], le), le);
    }
  }

  /** A sequence whose multiset has no element twice is duplicate free. */
  lemma {:induction false} NoDupFromMultiset<T>(s: seq<T>, t: seq<T>)
    requires multiset(s) == multiset(t)
    requires NoDup(t)
    ensures NoDup(s)
  {
    forall i, j | 0 <= i < j < |s| ensures s[i] != s[j] {
      if s[i] == s[j] {
        MultiplicityOfRepeat(s, i, j);
        MultiplicityInNoDup(t, s[i]);
        assert false;
      }
    }
  }

  lemma {:induction false} MultiplicityOfRepeat<T>(s: seq<T>, i: nat, j: nat)
    requires i < j < |s| && s[i] == s[j]
    ensures multiset(s)[s[i]] >= 2
  {
    assert s == s[..i] + [s[i]] + s[i + 1..j] + [s[j]] + s[j + 1..];
  }

  lemma {:induction false} MultiplicityInNoDup<T>(t: seq<T>, x: T)
    requires NoDup(t)
    ensures multiset(t)[x] <= 1
  {
    if |t| > 0 {
      assert NoDup(t[1..]);
      MultiplicityInNoDup(t[1..], x);
      assert t == [t[0]] + t[1..];
      if x == t[0] {
        assert x !in t[1..] by {
          forall k | 0 <= k < |t| - 1 ensures t[1..][k] != x {
            assert t[k + 1] != t[0];
          }
        }
      }
    }
  }
}

=== FILE: text.dfy ===
/** String operations the index applies to its inputs: Python's `str.strip()`
    on text file contents and the ASCII part of `str.upper()` on list-type
    tokens. */
module Text {

  /** The code points Python's `str.isspace()` accepts, hence the ones
      `str.strip()` with no argument removes. */
  predicate IsSpace(c: char)
    ensures c == ' ' || c == '\t' || c == '\n' || c == '\r' ==> IsSpace(c)
    ensures 'a' <= c <= 'z' || 'A' <= c <= 'Z' || '0' <= c <= '9' || c == '.' || c == '_' ==> !IsSpace(c)
  {
    var n := c as int;
    || 0x09 <= n <= 0x0D
    || 0x1C <= n <= 0x20
    || n == 0x85 || n == 0xA0 || n == 0x1680
    || 0x2000 <= n <= 0x200A
    || n == 0x2028 || n == 0x2029 || n == 0x202F || n == 0x205F || n == 0x3000
  }

  /** Every character of `s` is white space. */
  predicate AllSpace(s: string) {
    forall i :: 0 <= i < |s| ==> IsSpace(s[i])
  }

  /** `s.lstrip()`. */
  function StripLeft(s: string): (r: string)
    ensures |r| <= |s| && r == s[|s| - |r|..]
    ensures AllSpace(s[..|s| - |r|])
    ensures |r| > 0 ==> !IsSpace(r[0])
  {
    if |s| > 0 && IsSpace(s[0]) then StripLeft(s[1..]) else s
  }

  /** `s.rstrip()`. */
  function StripRight(s: string): (r: string)
    ensures |r| <= |s| && r == s[..|r|]
    ensures AllSpace(s[|r|..])
    ensures |r| > 0 ==> !IsSpace(r[|r| - 1])
  {
    if |s| > 0 && IsSpace(s[|s| - 1]) then StripRight(s[..|s| - 1]) else s
  }

  /** `s.strip()`: the longest middle part of `s` that neither starts nor
      ends with white space. */
  function Strip(s: string): (r: string)
    ensures |r| > 0 ==> !IsSpace(r[0]) && !IsSpace(r[|r| - 1])
  {
    StripRight(StripLeft(s))
  }

  /** A string already free of surrounding white space. */
  predicate IsStripped(t: string) {
    |t| > 0 ==> !IsSpace(t[0]) && !IsSpace(t[|t| - 1])
  }

  lemma {:induction false} StripLeftPadded(pre: string, t: string)
    requires AllSpace(pre)
    requires |t| == 0 || !IsSpace(t[0])
    ensures StripLeft(pre + t) == t
  {
    if |pre| > 0 {
      assert (pre + t)[1..] == pre[1..] + t;
      StripLeftPadded(pre[1..], t);
    } else {
      assert pre + t == t;
    }
  }

  lemma {:induction false} StripRightPadded(t: string, post: string)
    requires AllSpace(post)
    requires |t| == 0 || !IsSpace(t[|t| - 1])
    ensures StripRight(t + post) == t
  {
    if |post| > 0 {
      var s := t + post;
      assert s[..|s| - 1] == t + post[..|post| - 1];
      StripRightPadded(t, post[..|post| - 1]);
    } else {
      assert t + post == t;
    }
  }

  /** Strip removes exactly the white-space padding around stripped text:
      any amount of leading and trailing white space is dropped and the
      text in between is returned unchanged. */
  lemma StripPadded(pre: string, t: string, post: string)
    requires AllSpace(pre) && AllSpace(post) && IsStripped(t)
    ensures Strip(pre + t + post) == t
  {
    if |t| > 0 {
      assert pre + t + post == pre + (t + post);
      StripLeftPadded(pre, t + post);
      StripRightPadded(t, post);
    } else {
      assert pre + t + post == pre + post;
      assert AllSpace(pre + post) by {
        forall i | 0 <= i < |pre + post| ensures IsSpace((pre + post)[i]) {
          if i < |pre| { assert (pre + post)[i] == pre[i]; }
          else { assert (pre + post)[i] == post[i - |pre|]; }
        }
      }
      StripLeftPadded(pre + post, "");
      assert pre + post + "" == pre + post;
    }
  }

  /** Upper-cases an ASCII letter and leaves every other character alone. */
  function UpperChar(c: char): (u: char)
    ensures 'a' <= c <= 'z' ==> u as int == c as int - 32
    ensures !('a' <= c <= 'z') ==> u == c
  {
    if 'a' <= c <= 'z' then (c as int - 32) as char else c
  }

  /** `s.upper()` restricted to ASCII letters, character by character. */
  function Upper(s: string): (u: string)
    ensures |u| == |s|
    ensures forall i :: 0 <= i < |s| ==> u[i] == UpperChar(s[i])
  {
    seq(|s|, i requires 0 <= i < |s| => UpperChar(s[i]))
  }
}
